=== FILE: README.md ===
# Market calendar of pythclient, in Dafny

This project models `pythclient/calendar.py`. The module decides whether a
market is open at a given instant. It also finds the market's next open and
next close. There are three kinds of asset type:

- `"equity"` trades 09:30 to 16:00 New York time, Monday to Friday. It is
  closed on the full holidays and trades 09:30 to 13:00 on the early-close days.
- `"fx"` and `"metal"` trade around the clock. They close from Friday 17:00
  to Sunday 17:00 and on their own holidays.
- Every other asset type is treated as crypto. It is always open and has no
  next open or next close.

An instant is a New York wall-clock value: a day number and a time of day in
seconds. The day number is Python's `date.toordinal()`, so the weekday is
`(day + 6) % 7` with Monday as 0. Adding `timedelta(days=1)` moves to the next
day number at the same time of day. The three holiday lists form a
`Calendar` value. Every operation takes the calendar as a parameter.
`Holidays.SourceCalendar` copies the lists in the source exactly as written.

The loops `while …: t += timedelta(days=1)` become total recursive functions
(module `DaySearch`). The advance-while-closed loop terminates because the
holiday sets are finite. Its measure counts three for each holiday still ahead
and adds a small weekend slack, and every step past a closed day lowers it. The
FX/metal advance-while-open loop terminates because every Friday 17:00 is
closed, so its measure is the number of days to the next Friday. The corrected
FX/metal close search combines the two. A day with no closing is a Friday only
when that Friday and the Thursday before it are FX holidays, so the measure
counts seven for each FX holiday from the previous day on, plus the days to the
next Friday.

Modules:
- `LocalTime`: instants, weekdays, day stepping.
- `Holidays`: the calendar data.
- `MarketHours`: `is_market_open`, plus reference definitions of the equity
  session table and the FX weekend.
- `DaySearch`: the day-stepping loops.
- `NextOpen`: `get_next_market_open`.
- `NextClose`: `get_next_market_close`, and the closings it evidently means to
  report.
- `Scenarios`: the model on the source's own calendar.

`NextOpen.NextMarketOpen` and `NextClose.NextMarketClose` follow the source
branch for branch, including the behaviour listed under "## Findings". The
corrected definitions sit beside them and do not replace them.

## Model

| member | source | states |
|---|---|---|
| MarketHours.IsMarketOpen | pythclient/calendar.py:40-74 | Equity is open exactly within the day's session from the reference session table. FX/metal is open exactly when the day is not an FX holiday and the instant lies outside the weekly window from Friday 17:00 to Sunday 17:00. Any other asset type is always open. |
| MarketHours.EquityRegularDay | pythclient/calendar.py:54-56 | On a day in neither equity list, the market is open iff the weekday is below 5 and 09:30 <= time < 16:00. |
| MarketHours.EquityRegularBoundaries | pythclient/calendar.py:54 | On a regular weekday the session is half-open: open at 09:30 and 15:59:59, closed at 09:29:59 and at 16:00. |
| MarketHours.EquityFullHolidayClosed | pythclient/calendar.py:46-53 | A full holiday that is not an early-close day is closed at every time. |
| MarketHours.EquityEarlyCloseDay | pythclient/calendar.py:46-52 | On an early-close day the market is open iff 09:30 <= time < 13:00, whatever the weekday. |
| MarketHours.FxMetalWeek | pythclient/calendar.py:58-71 | FX/metal is closed on a holiday, on Friday from 17:00, all Saturday and on Sunday before 17:00. It is open at every other instant. |
| MarketHours.FxMetalAlike | pythclient/calendar.py:58 | "fx" and "metal" are open at the same instants. |
| MarketHours.EquityOpeningEdges | pythclient/calendar.py:45-56 | The equity market opens (open at an instant, closed one second earlier) exactly at the 09:30 instants at which it is open. |
| MarketHours.EquityClosingEdges | pythclient/calendar.py:45-56 | The equity market closes exactly at the end of a day's session: 13:00 on early-close days, 16:00 on regular trading days. |
| MarketHours.EquityOpenSinceSessionStart | pythclient/calendar.py:45-56 | When equity is open at an instant, the time is at least 09:30 and the market was open at 09:30 that day. |
| Holidays.SourceCalendarWellFormed | pythclient/calendar.py:13-28 | The source's early-close days are not full holidays and all fall on weekdays. |
| DaySearch.AdvanceWhileClosed | pythclient/calendar.py:119-120 | The loop stops on the first day from the start at which the market is open at the session-open time: open at the result, closed at that time on every day skipped. The time of day is kept. |
| DaySearch.AdvanceWhileOpen | pythclient/calendar.py:113-114 | For FX/metal at 17:00, the loop stops on the first day from the start that is closed at 17:00. It is open at 17:00 on every day skipped. |
| DaySearch.SkipNonTradingDays | pythclient/calendar.py:171-176 | The loop stops on the first day from the start that is neither a full holiday nor a weekend. Every day skipped is one of those. The time of day is kept. |
| DaySearch.FxMetalAlikeClosedSearch | pythclient/calendar.py:119-120 | The advance-while-closed loop ends on the same day for "fx" as for "metal". |
| DaySearch.FxMetalAlikeOpenSearch | pythclient/calendar.py:113-114 | The advance-while-open loop ends on the same day for "fx" as for "metal". |
| NextOpen.EquityOpenCandidate | pythclient/calendar.py:83-97 | Gives 09:30 strictly after the query: on the query's day if the query is before 09:30, otherwise on the next day. |
| NextOpen.NextMarketOpen | pythclient/calendar.py:77-122 | Other asset types get no result. Equity, FX and metal get an instant at 09:30 (equity) or 17:00 (FX/metal) at which the market is open. It lies strictly after the query, on the query's day or later, and on a later day when the query is at or after that time. |
| NextOpen.EquityNextOpenIsNextOpening | pythclient/calendar.py:82-120 | The equity result is an opening of the market, and no opening lies strictly between the query and the result. |
| NextOpen.EquityClosedUntilNextOpen | pythclient/calendar.py:82-120 | Equity can be open strictly between the query and its next open only on the query's day, in a session already open at the query. |
| NextOpen.EquityNextOpenMonotone | pythclient/calendar.py:82-120 | A later query never gets an earlier equity open. |
| NextOpen.FxNextOpenBeforeFive | pythclient/calendar.py:99-105 | For FX/metal queried before 17:00, the result is the first day from the query's day on which the market is open at 17:00. |
| NextOpen.FxNextOpenAfterFive | pythclient/calendar.py:106-120 | For FX/metal queried at or after 17:00, the result is the first 17:00 after the query's day at which the market is open after being closed at the previous day's 17:00. |
| NextOpen.FxMetalAlikeNextOpen | pythclient/calendar.py:98-120 | "fx" and "metal" get the same next open. |
| NextClose.EquityCloseCandidate | pythclient/calendar.py:130-169 | The first candidate of the equity close search is at 13:00 or 16:00, on the query's day or later, and strictly after the query. |
| NextClose.NextMarketClose | pythclient/calendar.py:125-192 | Other asset types get no result. Equity gets a day that is neither a full holiday nor a weekend, at 13:00 or 16:00, no earlier than the query's day and strictly after the query. FX/metal gets a 17:00 on a later day at which the market is closed, while it was open at 17:00 the day before. |
| NextClose.EquityCloseSameDayRegular | pythclient/calendar.py:161-176 | A regular weekday queried before 16:00 gets that day at 16:00. |
| NextClose.EquityCloseSameDayEarly | pythclient/calendar.py:131-138 | An early-close weekday that is not a full holiday, queried before 13:00, gets that day at 13:00. |
| NextClose.EquityClosedAtNextClose | pythclient/calendar.py:130-176 | With a well-formed calendar, the equity market is closed at the returned instant. |
| NextClose.FxNextCloseAsWritten | pythclient/calendar.py:178-188 | The FX/metal result is the first 17:00 closing strictly after the query's day. |
| NextClose.FxMetalAlikeNextClose | pythclient/calendar.py:178-188 | "fx" and "metal" get the same next close. |
| NextClose.NextSessionEnd | pythclient/calendar.py:171-176 | Gives the end of the first equity session on a given day or later. Every day skipped has no session. |
| NextClose.SkipAgreesWithSessionEnd | pythclient/calendar.py:171-176 | On a well-formed calendar, the search past holidays and weekends stops on the same day as the search for the next day with an equity session. |
| NextClose.SkipAtCloseIsSessionEnd | pythclient/calendar.py:171-176 | On a well-formed calendar, a 16:00 search past holidays and weekends that does not land on an early-close day ends at the close of the next equity session. |
| NextClose.EquityNextCloseAgreesOffEarlyDays | pythclient/calendar.py:130-176 | Take a well-formed calendar and a query day that is not a full holiday. If the source's equity close does not fall on an early-close day, it equals the corrected close: the first closing strictly after the query. |
| NextClose.EquityNextCloseIntended | pythclient/calendar.py:130-176 | Corrected equity close: a closing of the market strictly after the query, with no closing strictly between the two. |
| NextClose.FxClosingEdgeTimes | pythclient/calendar.py:58-71 | FX/metal closes only at midnight at the start of an FX holiday, or at 17:00 on a Friday that is not an FX holiday. |
| NextClose.FxCloseSearch | pythclient/calendar.py:178-188 | Gives the first FX/metal closing on a given day or later, at the earliest closing time of its day. No day skipped has a closing. |
| NextClose.FxNoCloseBetween | pythclient/calendar.py:178-188 | Take a query with no closing later on its own day. Then no FX/metal closing lies strictly between the query and the first closing found from the next day. |
| NextClose.FxNextCloseIntended | pythclient/calendar.py:178-188 | Corrected FX/metal close: a closing of the market strictly after the query, with no closing strictly between the two. The closing can be at any time of day, including a holiday's midnight and 17:00 of the query's own day. |
| NextClose.FxNextCloseIntendedSameDay | pythclient/calendar.py:178-188 | If a query is before 17:00 and the market closes at 17:00 that day, the corrected close is that 17:00. |
| Scenarios.NewYearObservedClosed | pythclient/calendar.py:14 | 2023-01-02 is a Monday, and equity is closed there at 10:00. |
| Scenarios.IndependenceEveEarlyClose | pythclient/calendar.py:26 | On 2023-07-03 equity is open at 10:00 and closed at 14:00. |
| Scenarios.FxSaturdayNoonNextOpen | pythclient/calendar.py:98-120 | A query on Saturday 2023-01-07 at noon gets the FX next open Sunday 2023-01-08 at 17:00. |
| Scenarios.EquityMondayNextClose | pythclient/calendar.py:161-176 | A query on Monday 2023-01-09 at 10:00 gets the equity next close that day at 16:00. |
| Scenarios.LaborDay2023OpenAsWritten | pythclient/calendar.py:21 | The listed 2022-09-04 is a Sunday and 2023-09-04 is a Monday. With the list as written, equity is open on 2023-09-04 at 10:00. |
| Scenarios.LaborDay2023ClosedIntended | pythclient/calendar.py:13-24 | With the entry moved to 2023-09-04, equity is closed all that day and no other day changes. |
| Scenarios.EarlyCloseMissedAsWritten | pythclient/calendar.py:161-176 | From 2023-11-22 at 17:00 the source's close is 2023-11-24 at 16:00, where the market does not close. The corrected close is 13:00 that day. |
| Scenarios.ThanksgivingSessionSkippedAsWritten | pythclient/calendar.py:147-160 | From Thanksgiving 2023-11-23 at 10:00 the source's close is 2023-11-27 at 16:00. That passes the session of 2023-11-24, which the corrected close reports as 13:00. |
| Scenarios.HolidaySessionSkippedAsWritten | pythclient/calendar.py:147-160 | From Independence Day, Tuesday 2023-07-04 at 10:00, the source's close is Thursday 2023-07-06 at 16:00. The market closes at 16:00 on Wednesday 2023-07-05, which is also the corrected close. |
| Scenarios.FxHolidayCloseOnFiveGrid | pythclient/calendar.py:179-188 | On Christmas 2023, a Monday FX holiday, FX closes at midnight. From Sunday 2023-12-24 at 18:00 the source reports Monday 2023-12-25 at 17:00, and the corrected close reports that midnight. |
| Scenarios.FxCloseAfterThursdayHoliday | pythclient/calendar.py:179-188 | Take a calendar whose one FX holiday is Thursday 2023-01-05. FX is open on Friday 2023-01-06 at 10:00 and closes at 17:00, though it was closed at 17:00 the day before. The corrected close finds that 17:00. |
| Scenarios.FxFridayCloseSkippedAsWritten | pythclient/calendar.py:179-188 | On Friday 2023-01-06 at 10:00 FX is open and closes at 17:00 that day. The source's close is the following Friday; the corrected close is 17:00 the same day. |

## Left out

- Time-zone conversion (`astimezone(NY_TZ)`, lines 42, 79, 127) and daylight saving time: instants are already New York wall-clock values. A naive datetime, which Python would read in the machine's local zone, is not modelled.
- Conversion of results to UTC and their `strftime` formatting (lines 122, 192): results are local instants.
- The `fromisoformat` round trip in the equity holiday branch (lines 148-160): it keeps the next open's local day, and the model takes that day at 16:00 directly.
- Gregorian year/month/day arithmetic: holiday dates are transcribed as day numbers, with their dates as comments.
- Microseconds: times of day are whole seconds. The source constants and the candidates it builds all have zero seconds and microseconds.
- Python's date range (years 1 to 9999): day numbers are unbounded, so the `OverflowError` of stepping past year 9999 is not modelled.
- NextOpen.NextMarketOpen: the FX/metal result is not stated to be an opening of the market. Queried before 17:00 from Monday to Thursday, on a day that is not an FX holiday, the source returns 17:00 of the same day even though the market is open throughout. It also reports a reopening after an FX holiday at 17:00, while the market is open from midnight. Both are modelled as written.
- NextClose.NextMarketClose: the FX/metal close is found only on the 17:00 grid. An FX holiday on a weekday closes the market at midnight, yet the source reports the closing at 17:00 of the holiday. This is modelled as written. NextClose.FxNextCloseIntended reports the midnight: from Sunday 2023-12-24 at 18:00 the source gives Monday 2023-12-25 at 17:00, and the corrected close gives that midnight.

## Findings

| source | as written | input that shows it | evidently intended | confidence | as-written member | corrected member |
|---|---|---|---|---|---|---|
| pythclient/calendar.py:21 | The equity holiday list holds 2022-09-04, a Sunday. | Equity on Monday 2023-09-04 at 10:00 is reported open. | 2023-09-04, Labor Day, closed all day. | high; not executed | Scenarios.LaborDay2023OpenAsWritten | Scenarios.LaborDay2023ClosedIntended |
| pythclient/calendar.py:161-176 | The close is placed at 16:00 and only moved past holidays and weekends. An early-close day reached this way keeps 16:00. | Equity from Wednesday 2023-11-22 at 17:00 gets Friday 2023-11-24 at 16:00. | Friday 2023-11-24 at 13:00, when that session ends. | high; not executed | Scenarios.EarlyCloseMissedAsWritten | NextClose.EquityNextCloseIntended |
| pythclient/calendar.py:147-160 | On a full holiday the source searches for the next open starting from the same time on the following day, then moves to 16:00. A query at or after 09:30 therefore skips the following day's session. | Equity from Tuesday 2023-07-04 at 10:00 gets Thursday 2023-07-06 at 16:00. | Wednesday 2023-07-05 at 16:00. | high; not executed | Scenarios.HolidaySessionSkippedAsWritten | NextClose.EquityNextCloseIntended |
| pythclient/calendar.py:179-188 | The two-phase scan starts at 17:00 of the query's day. On a Friday that instant is already closed, so the first phase runs on to Sunday. | FX from Friday 2023-01-06 at 10:00 gets Friday 2023-01-13 at 17:00. | Friday 2023-01-06 at 17:00. | high; not executed | Scenarios.FxFridayCloseSkippedAsWritten | NextClose.FxNextCloseIntended |

=== FILE: day_search.dfy ===
/** The day-stepping loops of calendar.py (`while …: x += timedelta(days=1)`),
    as recursive functions whose termination follows from the finiteness of
    the holiday sets. */
module DaySearch {

  import opened LocalTime
  import opened Holidays
  import opened MarketHours

  /** Bound on the closed days still ahead of `day`: three for each pending
      holiday, plus two on the first weekday of the weekly closure and one on
      the second. Every step past a closed day lowers it. */
  function ClosedRunBound(holidays: set<int>, firstClosed: int, day: int): nat
  {
    3 * Pending(holidays, day)
    + (if Weekday(day) == firstClosed then 2 else if Weekday(day) == firstClosed + 1 then 1 else 0)
  }

  lemma ClosedRunBoundDecreases(holidays: set<int>, firstClosed: int, day: int)
    requires 0 <= firstClosed < 6
    requires day in holidays || Weekday(day) == firstClosed || Weekday(day) == firstClosed + 1
    ensures ClosedRunBound(holidays, firstClosed, day + 1) < ClosedRunBound(holidays, firstClosed, day)
  {
    PendingShrinks(holidays, day);
    WeekdayNext(day);
  }

  /** Termination measure of the advance-while-closed loop: equity closes
      over Saturday and Sunday, FX/metal (at 17:00) over Friday and Saturday. */
  function OpenSearchBound(cal: Calendar, assetType: string, day: int): nat
    requires HasSchedule(assetType)
  {
    if assetType == EquityTag then ClosedRunBound(cal.equityHolidays, Saturday, day)
    else ClosedRunBound(cal.fxMetalHolidays, Friday, day)
  }

  /** `while not is_market_open(asset_type, t): t += timedelta(days=1)`, with
      `t` at the asset's session-open time of day. The result is the first
      day from `t` on at which the market is open at that time. */
  function AdvanceWhileClosed(cal: Calendar, assetType: string, t: Instant): (r: Instant)
    requires HasSchedule(assetType) && t.time == SessionOpen(assetType)
    ensures r.time == t.time && t.day <= r.day
    ensures IsMarketOpen(cal, assetType, r)
    ensures forall d :: t.day <= d < r.day ==> !IsMarketOpen(cal, assetType, Instant(d, t.time))
    decreases OpenSearchBound(cal, assetType, t.day)
  {
    if IsMarketOpen(cal, assetType, t) then t
    else
      var first := if assetType == EquityTag then Saturday else Friday;
      var holidays := if assetType == EquityTag then cal.equityHolidays else cal.fxMetalHolidays;
      ClosedRunBoundDecreases(holidays, first, t.day);
      AdvanceWhileClosed(cal, assetType, NextDay(t))
  }

  /** Days still to go until the next Friday (zero on a Friday). */
  function DaysToFriday(day: int): nat
  {
    (Friday - Weekday(day)) % 7
  }

  /** `while is_market_open(asset_type, t): t += timedelta(days=1)` for FX and
      metal at 17:00: the first day from `t` on at which the market is closed at
      17:00; every Friday is one. */
  function AdvanceWhileOpen(cal: Calendar, assetType: string, t: Instant): (r: Instant)
    requires IsFxMetal(assetType) && t.time == FxMetalOpenClose
    ensures r.time == t.time && t.day <= r.day
    ensures !IsMarketOpen(cal, assetType, r)
    ensures forall d :: t.day <= d < r.day ==> IsMarketOpen(cal, assetType, Instant(d, t.time))
    decreases DaysToFriday(t.day)
  {
    if !IsMarketOpen(cal, assetType, t) then t
    else
      WeekdayNext(t.day);
      AdvanceWhileOpen(cal, assetType, NextDay(t))
  }

  /** An equity trading day for the close search: not a full holiday, not a weekend. */
  predicate IsEquityTradingDay(cal: Calendar, day: int)
  {
    day !in cal.equityHolidays && Weekday(day) < Saturday
  }

  /** `while date in EQUITY_HOLIDAYS or weekday() >= 5: t += timedelta(days=1)`:
      the first trading day from `t` on, at the same time of day. */
  function SkipNonTradingDays(cal: Calendar, t: Instant): (r: Instant)
    ensures r.time == t.time && t.day <= r.day
    ensures IsEquityTradingDay(cal, r.day)
    ensures forall d :: t.day <= d < r.day ==> !IsEquityTradingDay(cal, d)
    decreases ClosedRunBound(cal.equityHolidays, Saturday, t.day)
  {
    if IsEquityTradingDay(cal, t.day) then t
    else
      ClosedRunBoundDecreases(cal.equityHolidays, Saturday, t.day);
      SkipNonTradingDays(cal, NextDay(t))
  }

  /** The advance-while-closed search finds the same day for "fx" as for "metal". */
  lemma {:induction false} FxMetalAlikeClosedSearch(cal: Calendar, t: Instant)
    requires t.time == FxMetalOpenClose
    ensures AdvanceWhileClosed(cal, "fx", t) == AdvanceWhileClosed(cal, "metal", t)
    decreases OpenSearchBound(cal, "fx", t.day)
  {
    FxMetalAlike(cal, t);
    if !IsMarketOpen(cal, "fx", t) {
      ClosedRunBoundDecreases(cal.fxMetalHolidays, Friday, t.day);
      FxMetalAlikeClosedSearch(cal, NextDay(t));
    }
  }

  /** The advance-while-open search finds the same day for "fx" as for "metal". */
  lemma {:induction false} FxMetalAlikeOpenSearch(cal: Calendar, t: Instant)
    requires t.time == FxMetalOpenClose
    ensures AdvanceWhileOpen(cal, "fx", t) == AdvanceWhileOpen(cal, "metal", t)
    decreases DaysToFriday(t.day)
  {
    FxMetalAlike(cal, t);
    if IsMarketOpen(cal, "fx", t) {
      WeekdayNext(t.day);
      FxMetalAlikeOpenSearch(cal, NextDay(t));
    }
  }
}

=== FILE: holidays.dfy ===
/** The calendar data of the market rules: three sets of day numbers. */
module Holidays {

  import opened LocalTime

  /** Full equity holidays, equity early-close days and FX/metal holidays. */
  datatype Calendar = Calendar(
    equityHolidays: set<int>,
    equityEarlyHolidays: set<int>,
    fxMetalHolidays: set<int>)

  /** The lists compiled into calendar.py, as written there; each comment
      gives the calendar date of the day number beside it. */
  const SourceCalendar := Calendar(
    {
      738522, // 2023-01-02
      738536, // 2023-01-16
      738571, // 2023-02-20
      738617, // 2023-04-07
      738669, // 2023-05-29
      738690, // 2023-06-19
      738705, // 2023-07-04
      738402, // 2022-09-04, a Sunday
      738847, // 2023-11-23
      738879  // 2023-12-25
    },
    {
      738704, // 2023-07-03
      738848  // 2023-11-24
    },
    {
      738521, // 2023-01-01
      738879  // 2023-12-25
    })

  /** Labor Day 2023, Monday 2023-09-04. */
  const LaborDay2023 := 738767
  /** Sunday 2022-09-04, the entry the source list holds in its place. */
  const LaborDayAsListed := 738402

  /** The source calendar with its Labor Day entry moved to 2023-09-04. */
  const IntendedCalendar := SourceCalendar.(
    equityHolidays := SourceCalendar.equityHolidays - {LaborDayAsListed} + {LaborDay2023})

  /** The early-close days are not also full holidays and all fall on weekdays. */
  predicate WellFormed(cal: Calendar)
  {
    && cal.equityEarlyHolidays !! cal.equityHolidays
    && forall d :: d in cal.equityEarlyHolidays ==> Weekday(d) < Saturday
  }

  /** Number of days of `days` on or after `day`. */
  function Pending(days: set<int>, day: int): nat
  {
    |set h | h in days && h >= day|
  }

  /** Stepping past a day never adds pending days, and stepping past a listed day removes one. */
  lemma PendingShrinks(days: set<int>, day: int)
    ensures Pending(days, day + 1) <= Pending(days, day)
    ensures day in days ==> Pending(days, day + 1) < Pending(days, day)
  {
    var later := set h | h in days && h >= day + 1;
    var from := set h | h in days && h >= day;
    if day in days {
      assert from == later + {day};
      assert day !in later;
    } else {
      assert from == later;
    }
  }

  /** The calendar compiled into the source satisfies `WellFormed`. */
  lemma SourceCalendarWellFormed()
    ensures WellFormed(SourceCalendar)
  {
    assert Weekday(738704) == Monday;
    assert Weekday(738848) == Friday;
  }
}

=== FILE: local_time.dfy ===
/** Wall-clock instants in the market's reference zone (New York local time).

    An instant is a calendar day, numbered like Python's `date.toordinal()`
    (day 1 is Monday 0001-01-01 of the proleptic Gregorian calendar), and a
    time of day in whole seconds. Time-zone conversion happens before these
    values exist and is not part of this module. */
module LocalTime {

  const SecondsPerDay := 86400

  /** Seconds elapsed since local midnight. */
  type TimeOfDay = s: int | 0 <= s < 86400

  /** A local wall-clock instant. */
  datatype Instant = Instant(day: int, time: TimeOfDay)

  /** Weekday numbers as returned by Python's `weekday()`. */
  const Monday := 0
  const Friday := 4
  const Saturday := 5
  const Sunday := 6

  /** Weekday of a day number: ordinal 1 is a Monday. */
  function Weekday(day: int): (w: int)
    ensures 0 <= w < 7
  {
    (day + 6) % 7
  }

  /** Seconds since the start of day 0, on the local wall clock; orders instants. */
  function Stamp(t: Instant): int
  {
    t.day * SecondsPerDay + t.time
  }

  /** Same calendar day, another time of day: `dt.replace(hour=…, minute=…, second=0, microsecond=0)`. */
  function AtTime(t: Instant, time: TimeOfDay): (r: Instant)
    ensures r.day == t.day && r.time == time
  {
    Instant(t.day, time)
  }

  /** Adding `timedelta(days=1)` to an aware datetime moves its wall-clock
      fields one calendar day on and keeps the time of day. */
  function NextDay(t: Instant): (r: Instant)
    ensures Stamp(r) == Stamp(t) + SecondsPerDay
    ensures r.time == t.time
  {
    Instant(t.day + 1, t.time)
  }

  /** The instant one second earlier, crossing midnight when needed. */
  function OneSecondBefore(t: Instant): (r: Instant)
    ensures Stamp(r) + 1 == Stamp(t)
  {
    if t.time > 0 then Instant(t.day, t.time - 1) else Instant(t.day - 1, SecondsPerDay - 1)
  }

  /** Stamps order instants lexicographically by day, then by time of day. */
  lemma StampOrder(a: Instant, b: Instant)
    ensures Stamp(a) < Stamp(b) <==> a.day < b.day || (a.day == b.day && a.time < b.time)
  {
  }

  /** The weekday advances by one, modulo seven, from one day to the next. */
  lemma WeekdayNext(day: int)
    ensures Weekday(day + 1) == (Weekday(day) + 1) % 7
  {
  }
}

=== FILE: market_hours.dfy ===
/** `is_market_open`: the trading-hours rules of calendar.py for equity,
    FX/metal and every other asset type. */
module MarketHours {

  import opened Wrappers
  import opened LocalTime
  import opened Holidays

  /** Session boundaries, New York local time. */
  const EquityOpen: TimeOfDay := 9 * 3600 + 30 * 60        // 09:30
  const EquityClose: TimeOfDay := 16 * 3600                // 16:00
  const EquityEarlyClose: TimeOfDay := 13 * 3600           // 13:00
  const FxMetalOpenClose: TimeOfDay := 17 * 3600           // 17:00

  const EquityTag := "equity"

  /** The asset types the source tests with `asset_type in ["fx", "metal"]`. */
  predicate IsFxMetal(assetType: string)
  {
    assetType in ["fx", "metal"]
  }

  /** Asset types with trading hours; everything else is treated as crypto. */
  predicate HasSchedule(assetType: string)
  {
    assetType == EquityTag || IsFxMetal(assetType)
  }

  /** The time of day at which the next-open search places its candidates. */
  function SessionOpen(assetType: string): TimeOfDay
    requires HasSchedule(assetType)
  {
    if assetType == EquityTag then EquityOpen else FxMetalOpenClose
  }

  /** One trading session of a day, half-open: `[open, close)`. */
  datatype Session = Session(open: TimeOfDay, close: TimeOfDay)

  /** Reference schedule of the equity market: the session a calendar day
      has, if any. Early-close days trade a short session whatever their
      weekday; full holidays and weekends do not trade. */
  function EquitySession(cal: Calendar, day: int): Option<Session>
  {
    if day in cal.equityEarlyHolidays then Some(Session(EquityOpen, EquityEarlyClose))
    else if day in cal.equityHolidays || Weekday(day) >= Saturday then None
    else Some(Session(EquityOpen, EquityClose))
  }

  predicate InSession(s: Option<Session>, time: TimeOfDay)
  {
    s.Some? && s.value.open <= time < s.value.close
  }

  /** Position of an instant within its Monday-based week, in seconds. */
  function WeekSecond(t: Instant): int
  {
    Weekday(t.day) * SecondsPerDay + t.time
  }

  /** The FX/metal weekend: from Friday 17:00 up to, but not including, Sunday 17:00. */
  predicate InFxWeekend(t: Instant)
  {
    Friday * SecondsPerDay + FxMetalOpenClose <= WeekSecond(t) < Sunday * SecondsPerDay + FxMetalOpenClose
  }

  /** Whether the market of `assetType` is open at the local instant `t`. */
  function IsMarketOpen(cal: Calendar, assetType: string, t: Instant): (open: bool)
    ensures assetType == EquityTag ==> (open <==> InSession(EquitySession(cal, t.day), t.time))
    ensures IsFxMetal(assetType) ==> (open <==> t.day !in cal.fxMetalHolidays && !InFxWeekend(t))
    ensures !HasSchedule(assetType) ==> open
  {
    var day, date, time := Weekday(t.day), t.day, t.time;
    if assetType == EquityTag then
      if date in cal.equityHolidays || date in cal.equityEarlyHolidays then
        date in cal.equityEarlyHolidays && time >= EquityOpen && time < EquityEarlyClose
      else
        day < 5 && time >= EquityOpen && time < EquityClose
    else if IsFxMetal(assetType) then
      if date in cal.fxMetalHolidays then false
      else if day == 4 && time >= FxMetalOpenClose then false
      else if day == 5 then false
      else if day == 6 && time < FxMetalOpenClose then false
      else true
    else
      true
  }

  /** The market opens at `t`: open there, closed one second earlier. */
  predicate IsOpeningEdge(cal: Calendar, assetType: string, t: Instant)
  {
    IsMarketOpen(cal, assetType, t) && !IsMarketOpen(cal, assetType, OneSecondBefore(t))
  }

  /** The market closes at `t`: closed there, open one second earlier. */
  predicate IsClosingEdge(cal: Calendar, assetType: string, t: Instant)
  {
    !IsMarketOpen(cal, assetType, t) && IsMarketOpen(cal, assetType, OneSecondBefore(t))
  }

  /** At 17:00 of `day` the market is open, while at 17:00 the day before it was closed. */
  predicate OpensAtFive(cal: Calendar, assetType: string, day: int)
  {
    IsMarketOpen(cal, assetType, Instant(day, FxMetalOpenClose))
    && !IsMarketOpen(cal, assetType, Instant(day - 1, FxMetalOpenClose))
  }

  /** At 17:00 of `day` the market is closed, while at 17:00 the day before it was open. */
  predicate ClosesAtFive(cal: Calendar, assetType: string, day: int)
  {
    !IsMarketOpen(cal, assetType, Instant(day, FxMetalOpenClose))
    && IsMarketOpen(cal, assetType, Instant(day - 1, FxMetalOpenClose))
  }

  /** An equity day in neither holiday list trades Monday to Friday, 09:30 up to 16:00. */
  lemma EquityRegularDay(cal: Calendar, t: Instant)
    requires t.day !in cal.equityHolidays && t.day !in cal.equityEarlyHolidays
    ensures IsMarketOpen(cal, EquityTag, t)
        <==> Weekday(t.day) < Saturday && EquityOpen <= t.time < EquityClose
  {
  }

  /** The regular session is half-open: open at exactly 09:30, closed at exactly 16:00. */
  lemma EquityRegularBoundaries(cal: Calendar, day: int)
    requires day !in cal.equityHolidays && day !in cal.equityEarlyHolidays
    requires Weekday(day) < Saturday
    ensures IsMarketOpen(cal, EquityTag, Instant(day, EquityOpen))
    ensures !IsMarketOpen(cal, EquityTag, Instant(day, EquityOpen - 1))
    ensures IsMarketOpen(cal, EquityTag, Instant(day, EquityClose - 1))
    ensures !IsMarketOpen(cal, EquityTag, Instant(day, EquityClose))
  {
  }

  /** A full holiday that is not also an early-close day is closed all day. */
  lemma EquityFullHolidayClosed(cal: Calendar, t: Instant)
    requires t.day in cal.equityHolidays && t.day !in cal.equityEarlyHolidays
    ensures !IsMarketOpen(cal, EquityTag, t)
  {
  }

  /** An early-close day trades 09:30 up to 13:00, whatever its weekday. */
  lemma EquityEarlyCloseDay(cal: Calendar, t: Instant)
    requires t.day in cal.equityEarlyHolidays
    ensures IsMarketOpen(cal, EquityTag, t) <==> EquityOpen <= t.time < EquityEarlyClose
  {
  }

  /** The FX/metal week, rule by rule: holidays closed all day, Friday from
      17:00 closed, Saturday closed, Sunday before 17:00 closed, open otherwise. */
  lemma FxMetalWeek(cal: Calendar, assetType: string, t: Instant)
    requires IsFxMetal(assetType)
    ensures t.day in cal.fxMetalHolidays ==> !IsMarketOpen(cal, assetType, t)
    ensures Weekday(t.day) == Friday && t.time >= FxMetalOpenClose ==> !IsMarketOpen(cal, assetType, t)
    ensures Weekday(t.day) == Saturday ==> !IsMarketOpen(cal, assetType, t)
    ensures Weekday(t.day) == Sunday && t.time < FxMetalOpenClose ==> !IsMarketOpen(cal, assetType, t)
    ensures IsMarketOpen(cal, assetType, t)
        <== t.day !in cal.fxMetalHolidays
            && !(Weekday(t.day) == Friday && t.time >= FxMetalOpenClose)
            && Weekday(t.day) != Saturday
            && !(Weekday(t.day) == Sunday && t.time < FxMetalOpenClose)
  {
  }

  /** "fx" and "metal" follow the same hours. */
  lemma FxMetalAlike(cal: Calendar, t: Instant)
    ensures IsMarketOpen(cal, "fx", t) == IsMarketOpen(cal, "metal", t)
  {
  }

  /** Every equity session starts at 09:30: the market opens exactly at the
      09:30 instants at which it is open. */
  lemma EquityOpeningEdges(cal: Calendar, t: Instant)
    ensures IsOpeningEdge(cal, EquityTag, t) <==> t.time == EquityOpen && IsMarketOpen(cal, EquityTag, t)
  {
    var p := OneSecondBefore(t);
    if t.time == EquityOpen {
      assert p.day == t.day && p.time < EquityOpen;
    }
  }

  /** The equity market closes exactly at the end of a day's session. */
  lemma EquityClosingEdges(cal: Calendar, t: Instant)
    ensures IsClosingEdge(cal, EquityTag, t)
        <==> EquitySession(cal, t.day).Some? && t.time == EquitySession(cal, t.day).value.close
  {
    var p := OneSecondBefore(t);
    var s := EquitySession(cal, t.day);
    if s.Some? && t.time == s.value.close {
      assert p.day == t.day && p.time == t.time - 1;
    }
    if IsClosingEdge(cal, EquityTag, t) {
      assert t.time > 0;
      assert p.day == t.day;
    }
  }

  /** An instant at which the equity market is open lies in a session that
      was already open at 09:30 of the same day. */
  lemma EquityOpenSinceSessionStart(cal: Calendar, t: Instant)
    requires IsMarketOpen(cal, EquityTag, t)
    ensures EquityOpen <= t.time
    ensures IsMarketOpen(cal, EquityTag, Instant(t.day, EquityOpen))
  {
  }
}

=== FILE: next_close.dfy ===
/** `get_next_market_close`: the next instant at which the market closes,
    as the source computes it, and the closing instants the source evidently
    means to compute. */
module NextClose {

  import opened Wrappers
  import opened LocalTime
  import opened Holidays
  import opened MarketHours
  import opened DaySearch
  import opened NextOpen

  /** First candidate of the equity close search, chosen on the query's own day. */
  function EquityCloseCandidate(cal: Calendar, t: Instant): (c: Instant)
    ensures t.day <= c.day && Stamp(t) < Stamp(c)
    ensures c.time == EquityEarlyClose || c.time == EquityClose
  {
    if t.day in cal.equityEarlyHolidays then
      if t.time < EquityEarlyClose then AtTime(t, EquityEarlyClose)
      else NextDay(AtTime(t, EquityClose))
    else if t.day in cal.equityHolidays then
      // The source formats the next open as a UTC string, parses it back and
      // converts it to New York time; this keeps its local day.
      AtTime(NextMarketOpen(cal, EquityTag, NextDay(t)).value, EquityClose)
    else if t.time >= EquityClose then NextDay(AtTime(t, EquityClose))
    else AtTime(t, EquityClose)
  }

  /** Next market close of `assetType` after the local instant `t`, as the
      source computes it; `None` for asset types without trading hours. */
  function NextMarketClose(cal: Calendar, assetType: string, t: Instant): (r: Option<Instant>)
    ensures !HasSchedule(assetType) ==> r.None?
    ensures assetType == EquityTag ==>
      && r.Some?
      && IsEquityTradingDay(cal, r.value.day)
      && (r.value.time == EquityEarlyClose || r.value.time == EquityClose)
      && t.day <= r.value.day
      && Stamp(t) < Stamp(r.value)
    ensures IsFxMetal(assetType) ==>
      && r.Some?
      && r.value.time == FxMetalOpenClose
      && ClosesAtFive(cal, assetType, r.value.day)
      && t.day < r.value.day
  {
    if assetType == EquityTag then
      Some(SkipNonTradingDays(cal, EquityCloseCandidate(cal, t)))
    else if IsFxMetal(assetType) then
      var open := AdvanceWhileClosed(cal, assetType, AtTime(t, FxMetalOpenClose));
      Some(AdvanceWhileOpen(cal, assetType, open))
    else
      None
  }

  /** A regular trading day queried before 16:00 closes the same day at 16:00. */
  lemma EquityCloseSameDayRegular(cal: Calendar, t: Instant)
    requires t.day !in cal.equityHolidays && t.day !in cal.equityEarlyHolidays
    requires Weekday(t.day) < Saturday && t.time < EquityClose
    ensures NextMarketClose(cal, EquityTag, t) == Some(Instant(t.day, EquityClose))
  {
  }

  /** An early-close weekday that is not a full holiday, queried before 13:00,
      closes the same day at 13:00. */
  lemma EquityCloseSameDayEarly(cal: Calendar, t: Instant)
    requires t.day in cal.equityEarlyHolidays && t.day !in cal.equityHolidays
    requires Weekday(t.day) < Saturday && t.time < EquityEarlyClose
    ensures NextMarketClose(cal, EquityTag, t) == Some(Instant(t.day, EquityEarlyClose))
  {
  }

  /** With a well-formed calendar the equity market is closed at the returned instant. */
  lemma EquityClosedAtNextClose(cal: Calendar, t: Instant, r: Instant)
    requires WellFormed(cal)
    requires NextMarketClose(cal, EquityTag, t) == Some(r)
    ensures !IsMarketOpen(cal, EquityTag, r)
  {
    var c := EquityCloseCandidate(cal, t);
    assert r == SkipNonTradingDays(cal, c);
    if r.time == EquityEarlyClose {
      assert c.time == EquityEarlyClose;
      assert t.day in cal.equityEarlyHolidays && c.day == t.day;
      assert IsEquityTradingDay(cal, t.day);
      assert r.day == t.day;
    }
  }

  /** As written, the FX/metal result is the first 17:00 closing after the
      query's day; a closing at 17:00 of the query's own day is never returned. */
  lemma FxNextCloseAsWritten(cal: Calendar, assetType: string, t: Instant, r: Instant)
    requires IsFxMetal(assetType)
    requires NextMarketClose(cal, assetType, t) == Some(r)
    ensures forall d :: t.day < d < r.day ==> !ClosesAtFive(cal, assetType, d)
  {
    var open := AdvanceWhileClosed(cal, assetType, AtTime(t, FxMetalOpenClose));
    assert r == AdvanceWhileOpen(cal, assetType, open);
  }

  /** "fx" and "metal" get the same next close. */
  lemma FxMetalAlikeNextClose(cal: Calendar, t: Instant)
    ensures NextMarketClose(cal, "fx", t) == NextMarketClose(cal, "metal", t)
  {
    var today := AtTime(t, FxMetalOpenClose);
    FxMetalAlikeClosedSearch(cal, today);
    FxMetalAlikeOpenSearch(cal, AdvanceWhileClosed(cal, "fx", today));
  }

  /** Close of the first equity session on day `day` or later. */
  function NextSessionEnd(cal: Calendar, day: int): (r: Instant)
    ensures day <= r.day
    ensures EquitySession(cal, r.day).Some? && r.time == EquitySession(cal, r.day).value.close
    ensures forall d :: day <= d < r.day ==> EquitySession(cal, d).None?
    decreases ClosedRunBound(cal.equityHolidays, Saturday, day)
  {
    match EquitySession(cal, day)
    case Some(s) => Instant(day, s.close)
    case None =>
      ClosedRunBoundDecreases(cal.equityHolidays, Saturday, day);
      NextSessionEnd(cal, day + 1)
  }

  /** The next equity close as evidently intended: the end of the session
      running at `t`, or else of the next session. It is the first instant
      strictly after `t` at which the market closes. */
  function EquityNextCloseIntended(cal: Calendar, t: Instant): (r: Instant)
    ensures IsClosingEdge(cal, EquityTag, r)
    ensures Stamp(t) < Stamp(r)
    ensures forall u :: Stamp(t) < Stamp(u) < Stamp(r) ==> !IsClosingEdge(cal, EquityTag, u)
  {
    var today := EquitySession(cal, t.day);
    var r := if today.Some? && t.time < today.value.close then Instant(t.day, today.value.close)
             else NextSessionEnd(cal, t.day + 1);
    EquityClosingEdges(cal, r);
    StampOrder(t, r);
    assert forall u :: Stamp(t) < Stamp(u) < Stamp(r) ==> !IsClosingEdge(cal, EquityTag, u) by {
      forall u | Stamp(t) < Stamp(u) < Stamp(r)
        ensures !IsClosingEdge(cal, EquityTag, u)
      {
        EquityClosingEdges(cal, u);
        StampOrder(t, u);
        StampOrder(u, r);
      }
    }
    r
  }

  /** On a well-formed calendar the days that have an equity session are
      exactly the trading days, so the trading-day search and the session
      search stop on the same day. */
  lemma {:induction false} SkipAgreesWithSessionEnd(cal: Calendar, t: Instant)
    requires WellFormed(cal)
    ensures SkipNonTradingDays(cal, t).day == NextSessionEnd(cal, t.day).day
    decreases ClosedRunBound(cal.equityHolidays, Saturday, t.day)
  {
    if !IsEquityTradingDay(cal, t.day) {
      assert t.day !in cal.equityEarlyHolidays;
      ClosedRunBoundDecreases(cal.equityHolidays, Saturday, t.day);
      SkipAgreesWithSessionEnd(cal, NextDay(t));
    }
  }

  /** A 16:00 trading-day search that does not land on an early-close day
      ends at the close of the next equity session. */
  lemma SkipAtCloseIsSessionEnd(cal: Calendar, day: int)
    requires WellFormed(cal)
    requires SkipNonTradingDays(cal, Instant(day, EquityClose)).day !in cal.equityEarlyHolidays
    ensures SkipNonTradingDays(cal, Instant(day, EquityClose)) == NextSessionEnd(cal, day)
  {
    SkipAgreesWithSessionEnd(cal, Instant(day, EquityClose));
  }

  /** The source's equity close differs from the intended one only when it
      lands on an early-close day or the query falls on a full holiday: on a
      well-formed calendar, from a day that is not a full holiday, a result
      that is not an early-close day is the first closing after the query. */
  lemma EquityNextCloseAgreesOffEarlyDays(cal: Calendar, t: Instant, r: Instant)
    requires WellFormed(cal)
    requires t.day !in cal.equityHolidays
    requires NextMarketClose(cal, EquityTag, t) == Some(r)
    requires r.day !in cal.equityEarlyHolidays
    ensures r == EquityNextCloseIntended(cal, t)
  {
    var c := EquityCloseCandidate(cal, t);
    assert r == SkipNonTradingDays(cal, c);
    var today := EquitySession(cal, t.day);
    if today.Some? && t.time < today.value.close {
      // The session running at `t` ends the same day; the candidate is that end.
      assert c == Instant(t.day, today.value.close);
      assert IsEquityTradingDay(cal, t.day);
      assert r == c;
    } else {
      // No session is left on the query's day: both searches start the next day.
      var next := Instant(t.day + 1, EquityClose);
      assert r == SkipNonTradingDays(cal, next) by {
        if c != next {
          assert c == Instant(t.day, EquityClose) && !IsEquityTradingDay(cal, t.day);
          assert NextDay(c) == next;
        }
      }
      SkipAtCloseIsSessionEnd(cal, t.day + 1);
    }
  }

  /** An FX/metal market closes only at midnight, when an FX holiday begins,
      or at 17:00 on a Friday that is not an FX holiday. */
  lemma FxClosingEdgeTimes(cal: Calendar, assetType: string, u: Instant)
    requires IsFxMetal(assetType)
    ensures IsClosingEdge(cal, assetType, u) && u.time == 0 ==> u.day in cal.fxMetalHolidays
    ensures IsClosingEdge(cal, assetType, u) && u.time != 0 ==>
      u.time == FxMetalOpenClose && Weekday(u.day) == Friday && u.day !in cal.fxMetalHolidays
  {
  }

  /** The earliest time of day at which the FX/metal market closes on `day`, if any. */
  function FxCloseOnDay(cal: Calendar, assetType: string, day: int): Option<TimeOfDay>
  {
    if IsClosingEdge(cal, assetType, Instant(day, 0)) then Some(0)
    else if IsClosingEdge(cal, assetType, Instant(day, FxMetalOpenClose)) then Some(FxMetalOpenClose)
    else None
  }

  /** Termination measure of the day-by-day close search: a day without a
      closing is a Friday only when it and the Thursday before are FX holidays. */
  function FxCloseSearchBound(cal: Calendar, day: int): nat
  {
    7 * Pending(cal.fxMetalHolidays, day - 1) + DaysToFriday(day)
  }

  lemma FxCloseSearchBoundDecreases(cal: Calendar, assetType: string, day: int)
    requires IsFxMetal(assetType) && FxCloseOnDay(cal, assetType, day).None?
    ensures FxCloseSearchBound(cal, day + 1) < FxCloseSearchBound(cal, day)
  {
    PendingShrinks(cal.fxMetalHolidays, day - 1);
    WeekdayNext(day - 1);
    WeekdayNext(day);
    if Weekday(day) == Friday {
      assert !IsClosingEdge(cal, assetType, Instant(day, FxMetalOpenClose));
      assert !IsClosingEdge(cal, assetType, Instant(day, 0));
      assert day - 1 in cal.fxMetalHolidays;
    }
  }

  /** The first FX/metal closing on `day` or later. */
  function FxCloseSearch(cal: Calendar, assetType: string, day: int): (r: Instant)
    requires IsFxMetal(assetType)
    ensures day <= r.day && FxCloseOnDay(cal, assetType, r.day) == Some(r.time)
    ensures forall d :: day <= d < r.day ==> FxCloseOnDay(cal, assetType, d).None?
    decreases FxCloseSearchBound(cal, day)
  {
    match FxCloseOnDay(cal, assetType, day)
    case Some(c) => Instant(day, c)
    case None =>
      FxCloseSearchBoundDecreases(cal, assetType, day);
      FxCloseSearch(cal, assetType, day + 1)
  }

  /** No FX/metal closing lies strictly between `t` and the first closing the
      search finds from the day after `t`, when there is none on `t`'s day after `t`. */
  lemma FxNoCloseBetween(cal: Calendar, assetType: string, t: Instant, r: Instant, u: Instant)
    requires IsFxMetal(assetType)
    requires t.time >= FxMetalOpenClose || !IsClosingEdge(cal, assetType, Instant(t.day, FxMetalOpenClose))
    requires t.day < r.day && FxCloseOnDay(cal, assetType, r.day) == Some(r.time)
    requires forall d :: t.day < d < r.day ==> FxCloseOnDay(cal, assetType, d).None?
    requires Stamp(t) < Stamp(u) < Stamp(r)
    ensures !IsClosingEdge(cal, assetType, u)
  {
    StampOrder(t, u);
    StampOrder(u, r);
    FxClosingEdgeTimes(cal, assetType, u);
    if u.day == t.day {
      if u.time == FxMetalOpenClose {
        assert u == Instant(t.day, FxMetalOpenClose);
      }
    } else if u.day < r.day {
      assert FxCloseOnDay(cal, assetType, u.day).None?;
    }
  }

  /** The next FX/metal close as evidently intended: the first instant
      strictly after `t` at which the market goes from open to closed. That is
      17:00 of a Friday that is not an FX holiday, or the midnight at which an
      FX holiday begins, whichever comes first, including 17:00 of the query's
      own day. */
  function FxNextCloseIntended(cal: Calendar, assetType: string, t: Instant): (r: Instant)
    requires IsFxMetal(assetType)
    ensures IsClosingEdge(cal, assetType, r)
    ensures Stamp(t) < Stamp(r)
    ensures forall u :: Stamp(t) < Stamp(u) < Stamp(r) ==> !IsClosingEdge(cal, assetType, u)
  {
    var five := Instant(t.day, FxMetalOpenClose);
    if t.time < FxMetalOpenClose && IsClosingEdge(cal, assetType, five) then
      assert forall u :: Stamp(t) < Stamp(u) < Stamp(five) ==> !IsClosingEdge(cal, assetType, u) by {
        forall u | Stamp(t) < Stamp(u) < Stamp(five) && IsClosingEdge(cal, assetType, u)
          ensures false
        {
          StampOrder(t, u);
          StampOrder(u, five);
          FxClosingEdgeTimes(cal, assetType, u);
        }
      }
      five
    else
      var r := FxCloseSearch(cal, assetType, t.day + 1);
      StampOrder(t, r);
      assert forall u :: Stamp(t) < Stamp(u) < Stamp(r) ==> !IsClosingEdge(cal, assetType, u) by {
        forall u | Stamp(t) < Stamp(u) < Stamp(r)
          ensures !IsClosingEdge(cal, assetType, u)
        {
          FxNoCloseBetween(cal, assetType, t, r, u);
        }
      }
      r
  }

  /** A closing at 17:00 later on the query's own day is the next FX/metal close. */
  lemma FxNextCloseIntendedSameDay(cal: Calendar, assetType: string, t: Instant)
    requires IsFxMetal(assetType)
    requires t.time < FxMetalOpenClose
    requires IsClosingEdge(cal, assetType, Instant(t.day, FxMetalOpenClose))
    ensures FxNextCloseIntended(cal, assetType, t) == Instant(t.day, FxMetalOpenClose)
  {
  }
}

=== FILE: next_open.dfy ===
/** `get_next_market_open`: the next instant at the asset's session-open time
    at which the market is open. The result is a local instant; the source
    formats it as a UTC string. */
module NextOpen {

  import opened Wrappers
  import opened LocalTime
  import opened Holidays
  import opened MarketHours
  import opened DaySearch

  /** First candidate of the equity open search: 09:30 of the query's day
      when the query is before it, else 09:30 of the next day. */
  function EquityOpenCandidate(t: Instant): (c: Instant)
    ensures c.time == EquityOpen && Stamp(t) < Stamp(c)
    ensures c.day == t.day <==> t.time < EquityOpen
    ensures c.day == t.day || c.day == t.day + 1
  {
    if t.time < EquityOpen then AtTime(t, EquityOpen) else NextDay(AtTime(t, EquityOpen))
  }

  /** Next market open of `assetType` after the local instant `t`; `None` for
      asset types without trading hours. */
  function NextMarketOpen(cal: Calendar, assetType: string, t: Instant): (r: Option<Instant>)
    ensures !HasSchedule(assetType) ==> r.None?
    ensures HasSchedule(assetType) ==>
      && r.Some?
      && r.value.time == SessionOpen(assetType)
      && IsMarketOpen(cal, assetType, r.value)
      && t.day <= r.value.day
      && (t.time >= SessionOpen(assetType) ==> t.day < r.value.day)
      && Stamp(t) < Stamp(r.value)
  {
    if assetType == EquityTag then
      var candidate := EquityOpenCandidate(t);
      Some(AdvanceWhileClosed(cal, assetType, candidate))
    else if IsFxMetal(assetType) then
      var today := AtTime(t, FxMetalOpenClose);
      var candidate :=
        if t.time < FxMetalOpenClose then today
        else AdvanceWhileOpen(cal, assetType, today);
      Some(AdvanceWhileClosed(cal, assetType, candidate))
    else
      None
  }

  /** For equity the result is the next opening of the market: it opens at
      the result, and at no instant strictly between `t` and the result. */
  lemma EquityNextOpenIsNextOpening(cal: Calendar, t: Instant, r: Instant)
    requires NextMarketOpen(cal, EquityTag, t) == Some(r)
    ensures IsOpeningEdge(cal, EquityTag, r)
    ensures forall u :: Stamp(t) < Stamp(u) < Stamp(r) ==> !IsOpeningEdge(cal, EquityTag, u)
  {
    var candidate := EquityOpenCandidate(t);
    assert r == AdvanceWhileClosed(cal, EquityTag, candidate);
    EquityOpeningEdges(cal, r);
    forall u | Stamp(t) < Stamp(u) < Stamp(r)
      ensures !IsOpeningEdge(cal, EquityTag, u)
    {
      EquityOpeningEdges(cal, u);
      StampOrder(t, u);
      StampOrder(u, r);
      if u.time == EquityOpen {
        assert candidate.day <= u.day < r.day;
      }
    }
  }

  /** Between `t` and its next equity open the market is open only in the
      session already running at `t`. */
  lemma EquityClosedUntilNextOpen(cal: Calendar, t: Instant, r: Instant, u: Instant)
    requires NextMarketOpen(cal, EquityTag, t) == Some(r)
    requires Stamp(t) < Stamp(u) < Stamp(r)
    requires IsMarketOpen(cal, EquityTag, u)
    ensures u.day == t.day && IsMarketOpen(cal, EquityTag, t)
  {
    var candidate := EquityOpenCandidate(t);
    assert r == AdvanceWhileClosed(cal, EquityTag, candidate);
    EquityOpenSinceSessionStart(cal, u);
    StampOrder(t, u);
    StampOrder(u, r);
    assert !(candidate.day <= u.day < r.day);
  }

  /** Two queries in order get their equity opens in the same order. */
  lemma EquityNextOpenMonotone(cal: Calendar, t1: Instant, t2: Instant)
    requires Stamp(t1) <= Stamp(t2)
    ensures Stamp(NextMarketOpen(cal, EquityTag, t1).value) <= Stamp(NextMarketOpen(cal, EquityTag, t2).value)
  {
    var r1 := NextMarketOpen(cal, EquityTag, t1).value;
    var r2 := NextMarketOpen(cal, EquityTag, t2).value;
    EquityNextOpenIsNextOpening(cal, t1, r1);
    EquityNextOpenIsNextOpening(cal, t2, r2);
  }

  /** FX/metal queried before 17:00: the result is the first day from the
      query's day on whose 17:00 the market is open. */
  lemma FxNextOpenBeforeFive(cal: Calendar, assetType: string, t: Instant, r: Instant)
    requires IsFxMetal(assetType) && t.time < FxMetalOpenClose
    requires NextMarketOpen(cal, assetType, t) == Some(r)
    ensures forall d :: t.day <= d < r.day ==> !IsMarketOpen(cal, assetType, Instant(d, FxMetalOpenClose))
  {
    assert r == AdvanceWhileClosed(cal, assetType, AtTime(t, FxMetalOpenClose));
  }

  /** FX/metal queried at or after 17:00: the result is the first 17:00 after
      the query's day at which the market reopens after having been closed at
      the 17:00 before. */
  lemma FxNextOpenAfterFive(cal: Calendar, assetType: string, t: Instant, r: Instant)
    requires IsFxMetal(assetType) && t.time >= FxMetalOpenClose
    requires NextMarketOpen(cal, assetType, t) == Some(r)
    ensures t.day < r.day && OpensAtFive(cal, assetType, r.day)
    ensures forall d :: t.day < d < r.day ==> !OpensAtFive(cal, assetType, d)
  {
    var closed := AdvanceWhileOpen(cal, assetType, AtTime(t, FxMetalOpenClose));
    assert r == AdvanceWhileClosed(cal, assetType, closed);
    assert closed.day < r.day;
    assert !IsMarketOpen(cal, assetType, Instant(r.day - 1, FxMetalOpenClose));
  }

  /** "fx" and "metal" get the same next open. */
  lemma FxMetalAlikeNextOpen(cal: Calendar, t: Instant)
    ensures NextMarketOpen(cal, "fx", t) == NextMarketOpen(cal, "metal", t)
  {
    var today := AtTime(t, FxMetalOpenClose);
    FxMetalAlikeOpenSearch(cal, today);
    var candidate :=
      if t.time < FxMetalOpenClose then today else AdvanceWhileOpen(cal, "fx", today);
    FxMetalAlikeClosedSearch(cal, candidate);
  }
}

=== FILE: scenarios.dfy ===
/** The model applied to the calendar compiled into the source: example queries
    on the 2023 calendar, and queries at which the source's results differ from
    the closings it evidently means to report (one of them on a calendar with a
    single FX holiday). Day numbers are written with
    their calendar dates. */
module Scenarios {

  import opened Wrappers
  import opened LocalTime
  import opened Holidays
  import opened MarketHours
  import opened DaySearch
  import opened NextOpen
  import opened NextClose

  const Ten: TimeOfDay := 10 * 3600
  const Noon: TimeOfDay := 12 * 3600
  const Two: TimeOfDay := 14 * 3600
  const Five: TimeOfDay := 17 * 3600
  const Six: TimeOfDay := 18 * 3600

  /** Monday 2023-01-02, New Year's Day observed: closed at 10:00. */
  lemma NewYearObservedClosed()
    ensures Weekday(738522) == Monday
    ensures !IsMarketOpen(SourceCalendar, EquityTag, Instant(738522, Ten))
  {
  }

  /** Monday 2023-07-03, an early-close day: open at 10:00, closed at 14:00. */
  lemma IndependenceEveEarlyClose()
    ensures IsMarketOpen(SourceCalendar, EquityTag, Instant(738704, Ten))
    ensures !IsMarketOpen(SourceCalendar, EquityTag, Instant(738704, Two))
  {
  }

  /** Saturday 2023-01-07 at noon: FX next opens Sunday 2023-01-08 at 17:00. */
  lemma FxSaturdayNoonNextOpen()
    ensures NextMarketOpen(SourceCalendar, "fx", Instant(738527, Noon))
         == Some(Instant(738528, FxMetalOpenClose))
  {
    var sat := Instant(738527, FxMetalOpenClose);
    assert !IsMarketOpen(SourceCalendar, "fx", sat);
    assert IsMarketOpen(SourceCalendar, "fx", NextDay(sat));
  }

  /** Monday 2023-01-09 at 10:00: equity next closes the same day at 16:00. */
  lemma EquityMondayNextClose()
    ensures NextMarketClose(SourceCalendar, EquityTag, Instant(738529, Ten))
         == Some(Instant(738529, EquityClose))
  {
    EquityCloseSameDayRegular(SourceCalendar, Instant(738529, Ten));
  }

  /** As written, the list holds Sunday 2022-09-04 in place of Labor Day, so
      Monday 2023-09-04 trades normally. */
  lemma LaborDay2023OpenAsWritten()
    ensures Weekday(LaborDayAsListed) == Sunday && Weekday(LaborDay2023) == Monday
    ensures IsMarketOpen(SourceCalendar, EquityTag, Instant(LaborDay2023, Ten))
  {
  }

  /** With the entry moved to 2023-09-04 the market is closed all Labor Day,
      and every other equity day, the Sunday the entry leaves included, keeps
      its hours. */
  lemma LaborDay2023ClosedIntended(t: Instant)
    ensures t.day == LaborDay2023 ==> !IsMarketOpen(IntendedCalendar, EquityTag, t)
    ensures t.day != LaborDay2023 ==>
      IsMarketOpen(IntendedCalendar, EquityTag, t) == IsMarketOpen(SourceCalendar, EquityTag, t)
  {
  }

  /** Wednesday 2023-11-22 after the close: as written the next close is
      Friday 2023-11-24 at 16:00, though that early-close day stops trading at
      13:00, so nothing closes at 16:00. */
  lemma EarlyCloseMissedAsWritten()
    ensures NextMarketClose(SourceCalendar, EquityTag, Instant(738846, Five))
         == Some(Instant(738848, EquityClose))
    ensures !IsMarketOpen(SourceCalendar, EquityTag, Instant(738848, EquityEarlyClose))
    ensures !IsClosingEdge(SourceCalendar, EquityTag, Instant(738848, EquityClose))
    ensures EquityNextCloseIntended(SourceCalendar, Instant(738846, Five))
         == Instant(738848, EquityEarlyClose)
  {
    var t := Instant(738846, Five);
    var thu := Instant(738847, EquityClose);
    assert EquityCloseCandidate(SourceCalendar, t) == thu;
    assert !IsEquityTradingDay(SourceCalendar, thu.day);
    assert IsEquityTradingDay(SourceCalendar, NextDay(thu).day);
    assert NextSessionEnd(SourceCalendar, 738847) == NextSessionEnd(SourceCalendar, 738848);
  }

  /** Thanksgiving, Thursday 2023-11-23 at 10:00: as written the next close is
      Monday 2023-11-27 at 16:00, past the whole Friday session that ends at 13:00. */
  lemma ThanksgivingSessionSkippedAsWritten()
    ensures NextMarketClose(SourceCalendar, EquityTag, Instant(738847, Ten))
         == Some(Instant(738851, EquityClose))
    ensures IsMarketOpen(SourceCalendar, EquityTag, Instant(738848, Ten))
    ensures EquityNextCloseIntended(SourceCalendar, Instant(738847, Ten))
         == Instant(738848, EquityEarlyClose)
  {
    var t := Instant(738847, Ten);
    var sat := Instant(738849, EquityOpen);
    assert !IsMarketOpen(SourceCalendar, EquityTag, sat);
    assert !IsMarketOpen(SourceCalendar, EquityTag, NextDay(sat));
    assert IsMarketOpen(SourceCalendar, EquityTag, NextDay(NextDay(sat)));
    assert NextMarketOpen(SourceCalendar, EquityTag, NextDay(t)) == Some(Instant(738851, EquityOpen));
    assert EquityCloseCandidate(SourceCalendar, t) == Instant(738851, EquityClose);
  }

  /** Independence Day, Tuesday 2023-07-04 at 10:00: as written the next close
      is Thursday 2023-07-06 at 16:00. The next-open search starts from
      Wednesday at 10:00, after that day's session has begun, so it passes the
      regular Wednesday session, which ends at 16:00. */
  lemma HolidaySessionSkippedAsWritten()
    ensures NextMarketClose(SourceCalendar, EquityTag, Instant(738705, Ten))
         == Some(Instant(738707, EquityClose))
    ensures IsMarketOpen(SourceCalendar, EquityTag, Instant(738706, Ten))
    ensures IsClosingEdge(SourceCalendar, EquityTag, Instant(738706, EquityClose))
    ensures EquityNextCloseIntended(SourceCalendar, Instant(738705, Ten))
         == Instant(738706, EquityClose)
  {
    var t := Instant(738705, Ten);
    assert IsMarketOpen(SourceCalendar, EquityTag, Instant(738707, EquityOpen));
    assert NextMarketOpen(SourceCalendar, EquityTag, NextDay(t)) == Some(Instant(738707, EquityOpen));
    assert EquityCloseCandidate(SourceCalendar, t) == Instant(738707, EquityClose);
    EquityClosingEdges(SourceCalendar, Instant(738706, EquityClose));
  }

  /** Friday 2023-01-06 at 10:00, FX open: as written the next close is the
      following Friday, 2023-01-13 at 17:00, past the closing at 17:00 that day. */
  lemma FxFridayCloseSkippedAsWritten()
    ensures IsMarketOpen(SourceCalendar, "fx", Instant(738526, Ten))
    ensures ClosesAtFive(SourceCalendar, "fx", 738526)
    ensures NextMarketClose(SourceCalendar, "fx", Instant(738526, Ten))
         == Some(Instant(738533, FxMetalOpenClose))
    ensures FxNextCloseIntended(SourceCalendar, "fx", Instant(738526, Ten))
         == Instant(738526, FxMetalOpenClose)
  {
    var fri := Instant(738526, FxMetalOpenClose);
    var sun := Instant(738528, FxMetalOpenClose);
    assert !IsMarketOpen(SourceCalendar, "fx", fri);
    assert !IsMarketOpen(SourceCalendar, "fx", NextDay(fri));
    assert IsMarketOpen(SourceCalendar, "fx", sun);
    assert AdvanceWhileClosed(SourceCalendar, "fx", fri) == sun;
    assert IsMarketOpen(SourceCalendar, "fx", Instant(738529, FxMetalOpenClose));
    assert IsMarketOpen(SourceCalendar, "fx", Instant(738530, FxMetalOpenClose));
    assert IsMarketOpen(SourceCalendar, "fx", Instant(738531, FxMetalOpenClose));
    assert IsMarketOpen(SourceCalendar, "fx", Instant(738532, FxMetalOpenClose));
    assert !IsMarketOpen(SourceCalendar, "fx", Instant(738533, FxMetalOpenClose));
    assert IsClosingEdge(SourceCalendar, "fx", fri);
    FxNextCloseIntendedSameDay(SourceCalendar, "fx", Instant(738526, Ten));
  }

  /** A calendar whose one FX holiday is Thursday 2023-01-05: on Friday
      2023-01-06 the market is open at 10:00 and closes at 17:00, although it
      was also closed at 17:00 the day before, so the closing is not a change
      between consecutive 17:00 instants. The corrected close finds it. */
  lemma FxCloseAfterThursdayHoliday()
    ensures IsMarketOpen(Calendar({}, {}, {738525}), "fx", Instant(738526, Ten))
    ensures IsClosingEdge(Calendar({}, {}, {738525}), "fx", Instant(738526, FxMetalOpenClose))
    ensures !ClosesAtFive(Calendar({}, {}, {738525}), "fx", 738526)
    ensures FxNextCloseIntended(Calendar({}, {}, {738525}), "fx", Instant(738526, Ten))
         == Instant(738526, FxMetalOpenClose)
  {
    assert IsClosingEdge(Calendar({}, {}, {738525}), "fx", Instant(738526, FxMetalOpenClose));
    FxNextCloseIntendedSameDay(Calendar({}, {}, {738525}), "fx", Instant(738526, Ten));
  }

  /** Christmas 2023, a Monday FX holiday: the market closes at midnight.
      From Sunday 2023-12-24 at 18:00 the source, which keeps to the 17:00
      grid, reports Monday 2023-12-25 at 17:00; the corrected close reports
      the midnight itself. */
  lemma FxHolidayCloseOnFiveGrid()
    ensures IsClosingEdge(SourceCalendar, "fx", Instant(738879, 0))
    ensures NextMarketClose(SourceCalendar, "fx", Instant(738878, Six))
         == Some(Instant(738879, FxMetalOpenClose))
    ensures FxNextCloseIntended(SourceCalendar, "fx", Instant(738878, Six))
         == Instant(738879, 0)
  {
    var sun := Instant(738878, FxMetalOpenClose);
    assert IsMarketOpen(SourceCalendar, "fx", sun);
    assert !IsMarketOpen(SourceCalendar, "fx", NextDay(sun));
    assert IsClosingEdge(SourceCalendar, "fx", Instant(738879, 0));
  }
}

=== FILE: wrappers.dfy ===
/** The optional result of the next-event queries: `None` plays the part of
    the source's `None` return for markets that never close. */
module Wrappers {

  datatype Option<+T> = None | Some(value: T)
}
